=== FILE: README.md ===
# acts_as_translatable, modelled in Dafny

A model of the translation overlay of the `acts_as_translatable` Rails plugin. A model class
declares some attributes translatable. Each record holds those attributes in its own (native)
locale. A `translations` table is meant to hold one text per (owner type, owner id, attribute name) in the
other locale. The model covers:

- the declaration `acts_as_translatable :a, :b, options` (`Registry`);
- the `translations` rows and how the code looks them up (`Entries`, `Records`);
- the `translation_complete` / `translation_incomplete` scopes and the instance predicates
  `translation_complete?` / `translation_incomplete?`, computed as the code computes them: row
  counts, SQL three-valued logic for a NULL `associations_translated`, no filter on
  `translator_id` (`Completeness`);
- the generated accessors `localized_a`, `a_translated`, `a_translated=` and
  `attribute_translation`. Each is one function that takes the attribute name as data
  (`Accessors`);
- the association cache refresh `update_associations_translated_cache` (`Cascade`);
- `set_locale` and `target_locale` (`Locale`);
- the `Translation` model: the presence validation on `text`, the `translate` upsert, the
  `verified` / `unverified` / `for_user` scopes and `attribute_untranslated` (`TranslationStore`);
- worked examples on an `Item` class (`Scenarios`).

Persistence is a value. The translations table is a `seq<Translation>` in table order. A record
is a datatype whose `translations` field is its loaded collection. The setter and the upsert
return a new record or a new table. The current locale (`I18n.locale`) and the available
locales (`I18n.available_locales`) are explicit parameters. "Blank" means Ruby's `blank?`: nil,
or no non-whitespace character. That is also what the SQL pattern `~ '\S+'` tests.

The model follows the code as written, including where its comments say otherwise:

- `localized_a` (acts_as_translatable.rb:56) shows the native value when the record's own
  locale is blank or equals the current locale. The blank test is on the record's locale, not
  on `I18n.locale`.
- The "complete" count (acts_as_translatable.rb:44) counts non-blank translation rows of the
  owner, for any attribute. It does not count distinct attributes.
- The comment above the scopes (acts_as_translatable.rb:34) mentions
  `translator_id IS NOT NULL`, but the query at line 44 has no such filter.
  `Completeness.ScopesIgnoreTranslator` states this.
- A record with nothing to translate is never in the `translation_complete` scope
  (acts_as_translatable.rb:44-48): no group of rows can have a count equal to 0. Without the
  cache column, or with a cached flag that is not false, it is not in the
  `translation_incomplete` scope either, so `translation_complete?` holds for it. With the
  column present and the flag false, it is in the incomplete scope.

## Model

| member | source | states |
|---|---|---|
| Registry.Names | lib/acts_as_translatable/acts_as_translatable.rb:17 | Attribute names are the arguments converted with `to_s`: same length, same order. |
| Registry.Register | lib/acts_as_translatable/acts_as_translatable.rb:10-17 | A trailing options hash is popped and becomes the options; otherwise the options are empty. Every remaining argument, in order, becomes an attribute name. |
| Registry.AssociationNames | lib/acts_as_translatable/acts_as_translatable.rb:111 | `Array(...)` gives `[]` for an absent option, `[n]` for a single name and the array itself for an array. So it is empty exactly when the option is absent or an empty array. |
| Registry.RefreshesOnSave | lib/acts_as_translatable/acts_as_translatable.rb:87-89 | The after-save refresh is installed exactly when the associations option is given and the table has the cache column. A given but empty association array still installs it, because `[]` is truthy in Ruby. |
| Registry.DefaultIn | lib/acts_as_translatable/acts_as_translatable.rb:67 | A column default is read from the first column with the attribute's name. With no such column the result is nil. |
| Entries.FirstIndex | lib/acts_as_translatable/acts_as_translatable.rb:106 | `detect` returns the first matching row. It returns none exactly when no row matches. |
| Entries.OwnedRowsUniqueNames | lib/acts_as_translatable/acts_as_translatable.rb:19 | If the table holds at most one row per triple, an owner's `translations` collection holds at most one row per attribute. |
| Records.LoadedUniqueNames | lib/acts_as_translatable/acts_as_translatable.rb:19 | A record whose collection was loaded from a table with unique triples has at most one translation per attribute. |
| Completeness.Filled | lib/acts_as_translatable/acts_as_translatable.rb:38-42 | The sum of the per-attribute `case when` terms is at most the number of attributes. It is zero exactly when every translatable attribute is blank. |
| Completeness.FullyTranslatedMeaning | lib/acts_as_translatable/acts_as_translatable.rb:44 | The record's id is in the grouped subquery iff it needs at least one translation and its count of non-blank rows equals that need. A record with no rows has no group. |
| Completeness.IncompleteScopeMeaning | lib/acts_as_translatable/acts_as_translatable.rb:45-47 | The incomplete scope keeps a record iff its cached flag is false (when the column exists), or it needs translations and its non-blank row count differs from the need. A NULL flag selects nothing by itself. |
| Completeness.CompleteScopeMeaning | lib/acts_as_translatable/acts_as_translatable.rb:45-48 | The complete scope keeps a record iff its cached flag is true (when the column exists), it needs at least one translation, and its non-blank row count equals the need. |
| Completeness.InstancePredicates | lib/acts_as_translatable/acts_as_translatable.rb:97-103 | Exactly one of `translation_complete?` and `translation_incomplete?` holds. Complete means the flag is not false and the record needs nothing or has exactly as many rows as it needs. |
| Completeness.NothingRequiredNeverInCompleteScope | lib/acts_as_translatable/acts_as_translatable.rb:44-48 | A record with no non-blank translatable attribute is never in the complete scope, whatever rows exist. |
| Completeness.NothingRequiredInNeitherScope | lib/acts_as_translatable/acts_as_translatable.rb:40-48 | Without the cache column, such a record is in neither scope, yet `translation_complete?` holds for it. |
| Completeness.ScopesSplitWhenRequired | lib/acts_as_translatable/acts_as_translatable.rb:40-48 | A record that needs translations, with a true or absent flag, is in exactly one of the two scopes. Membership in the complete scope then agrees with `translation_complete?`. |
| Completeness.ScopesIgnoreTranslator | lib/acts_as_translatable/acts_as_translatable.rb:31-44 | Clearing every row's translator changes neither scope. Unverified rows count like verified ones, despite the comment. |
| Completeness.TidyCountMeansEveryRequired | lib/acts_as_translatable/acts_as_translatable.rb:38-44 | Take a tidy store: distinct attributes, one row per triple, and non-blank rows only for needed attributes. On it, "row count equals need" holds iff every needed attribute has a non-blank translation. |
| Completeness.TidyCompleteScopeAgrees | lib/acts_as_translatable/acts_as_translatable.rb:44-48 | On a tidy store, the code's complete scope equals the corrected complete scope restricted to records that need something. |
| Completeness.CorrectedScopesSplit | lib/acts_as_translatable/acts_as_translatable.rb:44-48 | The corrected scopes put every record whose flag is not NULL in exactly one of them. A record that needs nothing lands on the complete side when its cached flag is true or the column is absent. |
| Completeness.CorrectedIgnoresStrayRows | lib/acts_as_translatable/acts_as_translatable.rb:44 | Adding a row for an attribute the record does not need leaves the corrected scopes unchanged. |
| Accessors.AttributeTranslation | lib/acts_as_translatable/acts_as_translatable.rb:105-107 | `attribute_translation` returns the first loaded translation with that attribute name. It returns nil exactly when there is none. |
| Accessors.Localized | lib/acts_as_translatable/acts_as_translatable.rb:55-62 | In the record's own language (its locale is blank or current), the result is the native value, whatever translations exist. Otherwise it is the first translation's text, or the native value when there is no translation. |
| Accessors.TranslatedForm | lib/acts_as_translatable/acts_as_translatable.rb:65-68 | The result is the first translation's text. With no translation it is the column default, not the native value. |
| Accessors.Assign | lib/acts_as_translatable/acts_as_translatable.rb:71-83 | Only the record's translations change. A blank value removes one translation if there is one. A present value adds a translation only when none existed; the new one has no translator and no user. Otherwise the first translation of `a` gets the new text and keeps its translator and user, so a verified translation stays verified. |
| Accessors.AssignLeavesOthers | lib/acts_as_translatable/acts_as_translatable.rb:71-83 | The translations of every other attribute are exactly as before, in all three branches. |
| Accessors.AssignThenRead | lib/acts_as_translatable/acts_as_translatable.rb:55-83 | Round trip: after setting a non-blank value, `a_translated` returns it. So does `localized_a` outside the record's own language. |
| Accessors.AssignBlankClears | lib/acts_as_translatable/acts_as_translatable.rb:71-75 | With one translation per attribute, setting a blank value leaves no translation of that attribute. `a_translated` then returns the column default. |
| Accessors.AssignKeepsUniqueNames | lib/acts_as_translatable/acts_as_translatable.rb:71-83 | The setter keeps at most one translation per attribute. |
| Accessors.AssignStoresNoBlank | lib/acts_as_translatable/acts_as_translatable.rb:73-82 | The setter never leaves a blank translation: blank input deletes instead of storing. |
| Cascade.AssociationTranslated | lib/acts_as_translatable/acts_as_translatable.rb:112-120 | A single record counts as translated iff it is not in its class's incomplete scope. A relation counts iff none of its members is. Nil, a missing association or an untranslatable class raises. |
| Cascade.AllTranslated | lib/acts_as_translatable/acts_as_translatable.rb:111-121 | `all?` is true iff every association is translated. Otherwise its value is that of the first association that is not translated or that raises. |
| Cascade.RefreshCache | lib/acts_as_translatable/acts_as_translatable.rb:110-124 | The refresh fails iff the AND raises. Without the cache column it leaves the record as it is. With the column it stores the AND in the flag and changes nothing else. |
| Cascade.NoAssociationsCacheTrue | lib/acts_as_translatable/acts_as_translatable.rb:111-123 | With no associations configured, the cached flag becomes true. |
| Cascade.SingleAndCollection | lib/acts_as_translatable/acts_as_translatable.rb:110-124 | For one single and one collection association, the refresh caches true iff the single record is `translation_complete?` and no collection member is incomplete. |
| Locale.SetLocale | lib/acts_as_translatable/acts_as_translatable.rb:128-130 | Only the locale may change. A present locale is kept. A blank one becomes the current locale. |
| Locale.SetLocaleOnce | lib/acts_as_translatable/acts_as_translatable.rb:128-130 | Once filled with a present locale, a later `set_locale` under any current locale changes nothing. |
| Locale.TargetLocale | lib/acts_as_translatable/acts_as_translatable.rb:132-134 | The target is the second available locale when the record's locale is the first, else the first. A missing locale reads as "". |
| Locale.TargetLocaleToggles | lib/acts_as_translatable/acts_as_translatable.rb:132-134 | With two distinct locales and a record in one of them, the target is the other locale, and toggling twice returns the record's locale. |
| TranslationStore.Translate | lib/acts_as_translatable/translation.rb:9-15 | `translate` succeeds iff the text is present. On failure the table is unchanged. On success the table grows by one row only when the triple had no row. |
| TranslationStore.TranslateUpserts | lib/acts_as_translatable/translation.rb:11-15 | After success, the triple's first row carries the new text and translator. The triple's row count becomes max(1, old count). Rows of every other triple are untouched. |
| TranslationStore.TranslateKeepsOneRow | lib/acts_as_translatable/translation.rb:9-15 | On a table with unique triples and valid rows, both properties are kept, and exactly one row exists for the triple after success. |
| TranslationStore.TranslateBlankKeepsRow | lib/acts_as_translatable/translation.rb:9-14 | Blank text returns false, and the triple's rows keep their text and translator. |
| TranslationStore.TranslateTwiceLastWins | lib/acts_as_translatable/translation.rb:12-14 | When the second text is present, two `translate` calls on one triple give the same table and result as the second call alone: no duplicate row, and the last writer wins. |
| TranslationStore.VerifiedPartition | lib/acts_as_translatable/translation.rb:5-6 | `verified` and `unverified` split the table as multisets: rows with a translator versus rows without one. |
| TranslationStore.ForUser | lib/acts_as_translatable/translation.rb:7 | With no user id the relation is unfiltered. With one, exactly that user's rows remain, each as often as the table holds it. |
| Entries.SelectMultiset | lib/acts_as_translatable/translation.rb:5-7 | A `where` condition keeps every matching row exactly as often as the table holds it and drops every other row. |
| TranslationStore.AttributeUntranslated | lib/acts_as_translatable/translation.rb:17-19 | For an orphaned row (no owner) the call raises `NoMethodError` for the attribute name. Otherwise the result is the owning record's native value of the row's attribute, or nil when the record has no such attribute. |
| TranslationStore.UntranslatedIsOwnLanguageValue | lib/acts_as_translatable/translation.rb:17-19 | In the owner's own language, `localized_a` shows what `attribute_untranslated` returns for any translation of `a`. |
| Scenarios.ItemClassRegistered | lib/acts_as_translatable/acts_as_translatable.rb:10-17 | `acts_as_translatable :name, :description` on `Item` declares those two attributes in order, with no options. Its table has no cache column. |
| Scenarios.ChairNeedsOne | lib/acts_as_translatable/acts_as_translatable.rb:38-42 | An `Item` named "Chair" with an empty description needs one translation. |
| Scenarios.ChairScenario | lib/acts_as_translatable/acts_as_translatable.rb:38-48 | That item is incomplete with no translations. It is complete after `translate(u, "Item", 1, "name", "Chaise")`. |
| Scenarios.StrayRowKeepsChairIncomplete | lib/acts_as_translatable/acts_as_translatable.rb:44-47 | Add a translation of the blank description beside the name's. Every needed attribute is then translated, yet the item stays in the incomplete scope. |
| Scenarios.BlankItemInNeitherScope | lib/acts_as_translatable/acts_as_translatable.rb:44-48 | Take an item whose attributes are all blank, with no rows. `translation_complete?` holds for it, yet it is in neither scope. |

## Left out

- `Engine < Rails::Engine`, `has_many ... dependent: :destroy, autosave: true`, `cattr_accessor`
  and the callback registration are persistence plumbing. The table is a value. The refresh is a
  function the caller invokes after a save. `set_locale` is a function run on creation.
- `update_all` bypasses the save pipeline. It is modelled as returning the record's stored row
  with the flag replaced. When the cache goes stale is not modelled: the cache changes only when
  `RefreshCache` is called again, so a later change to an associated record leaves it stale.
- The SQL text and the PostgreSQL regex strings are modelled only by their meaning. The model
  reads an empty attribute list as a sum of 0. The code would build a malformed `" > 0"`
  condition there.
- The `puts` debug output in the setter is left out.
- The concurrency race in find-or-initialize is left out. `translate` is atomic on a
  single-threaded table.
- A lookup without ordering (`find_or_initialize_by`, `exists?`) is read as the first row in
  table order.
- Destroying a translation in the setter is modelled as removing it from the loaded
  collection. ActiveRecord's loaded association may still hold the destroyed object until it is
  reloaded; that is not modelled. When each change reaches the database is not modelled either:
  destroy hits it at once, while build and update wait for autosave.
- Accessors.Localized, Accessors.TranslatedForm, Accessors.Assign, TranslationStore.AttributeUntranslated:
  an attribute the record does not have reads as nil, where Ruby would raise `NoMethodError`
  and SQL would reject the column. (An orphaned row, whose owner is missing, is modelled:
  `attribute_untranslated` then fails with `NoMethodError`.)
- `translation_incomplete?` and `translation_complete?` query the database by id. The model
  reads the record passed in as its stored row. Unsaved in-memory edits and unsaved records
  (nil id) are not modelled.
- A translatable attribute whose column is not a string type is left out, as are NULL
  `translatable_id` values. Either changes what the SQL does.
- Whitespace is the ASCII set (space, tab, line feed, vertical tab, form feed, carriage return).
  Unicode spaces that a newer `blank?` or a locale-aware regex might add are not modelled.
- A nil translator in `translate` is left out: the translator is an opaque id.
- Accessors.Localized, Accessors.TranslatedForm, Accessors.Assign: the methods are generated per
  declared attribute. The model takes the name as data and requires it to be declared. It does
  not model method-name clashes between generated accessors.
- `for_user` takes a nullable integer. A blank string argument such as `""` is not modelled.
- Registry: calling `acts_as_translatable` again on a class replaces its options, its attribute
  list and the two scopes. Accessors that `define_method` created in earlier calls remain, and so
  does an `after_save` refresh an earlier call installed. That refresh reads the latest options,
  so after a later call without `:translatable_associations` it sets the cached flag to true
  (`Cascade.NoAssociationsCacheTrue`). The model returns a fresh
  `Declaration` per call and models only the latest call. `Registry.RefreshesOnSave` therefore
  says only whether that call installs the refresh. The model keeps no global table of classes.
  The refresh receives its classes in `Cascade.Db`.
- The SimpleForm form-builder input (`translated_input`) is presentation glue and is left out.

## Findings

| source | as written | input that shows it | evidently intended | confidence | as-written member | corrected member |
|---|---|---|---|---|---|---|
| lib/acts_as_translatable/acts_as_translatable.rb:44-48 | The complete scope needs a group of rows whose count equals the need. A record that needs nothing has no such group. | `Item` #2 with name `" "` and description nil, no translations: `translation_complete?` is true, yet the item is in neither scope. | A record with nothing to translate is in the complete scope, consistent with `translation_complete?`, so the two scopes split the records. | medium; not executed | Completeness.NothingRequiredInNeitherScope | Completeness.CorrectedScopesSplit |
| lib/acts_as_translatable/acts_as_translatable.rb:44 | The count takes every non-blank row of the owner, including rows for attributes that are not translatable or whose native value is blank. | `Item` #1 with name "Chair" and description "", and rows name "Chaise" and description "Table": it needs 1 but has 2 rows, so it stays incomplete. | Complete iff every non-blank translatable attribute has a translation (the comment at line 96). Rows of other attributes do not count. | medium; not executed | Scenarios.StrayRowKeepsChairIncomplete | Completeness.CorrectedIgnoresStrayRows |

The corrected scopes are `Completeness.CorrectedCompleteCondition` and
`Completeness.CorrectedIncompleteCondition`. `Completeness.TidyCompleteScopeAgrees` shows they
match the code on stores without stray or duplicate rows, apart from the records that need
nothing. The instance predicates and the cache refresh keep the code's own rule, since that is
what the classes run.

=== FILE: accessors.dfy ===
/** The accessors `acts_as_translatable` defines for each translatable attribute `a`:
    `localized_a`, `a_translated`, `a_translated=`, and the `attribute_translation` lookup
    they share. One function per accessor takes the attribute name as data. */
module Accessors {
  import opened Wrappers
  import opened Text
  import opened Entries
  import opened Records
  import opened Registry

  /** `attribute_translation(a)`: the first loaded translation of attribute `a`. */
  function AttributeTranslation(r: Record, a: string): (t: Option<Translation>)
    ensures t.None? <==> forall u :: u in r.translations ==> u.attributeName != a
    ensures forall i :: IsFirst(r.translations, Named(a), i) ==> t == Some(r.translations[i])
  {
    match FirstIndex(r.translations, Named(a))
    case None => None
    case Some(i) => FirstIndexOfFirst(r.translations, Named(a), i); Some(r.translations[i])
  }

  /** The record is shown in its own language: its locale is blank or is the current one. */
  predicate InOwnLanguage(r: Record, current: string) {
    Blank(r.locale) || r.locale == Some(current)
  }

  /** `localized_a` under current locale `current`: the native value in the record's own
      language; otherwise the translation's text, or the native value when there is none. */
  function Localized(d: Declaration, r: Record, a: string, current: string): (v: Option<string>)
    requires a in d.attributes
    ensures InOwnLanguage(r, current) ==> v == NativeValue(r, a)
    ensures !InOwnLanguage(r, current) && (forall u :: u in r.translations ==> u.attributeName != a)
            ==> v == NativeValue(r, a)
    ensures !InOwnLanguage(r, current)
            ==> forall i :: IsFirst(r.translations, Named(a), i) ==> v == r.translations[i].text
  {
    if InOwnLanguage(r, current) then NativeValue(r, a)
    else match AttributeTranslation(r, a)
      case Some(t) => t.text
      case None => NativeValue(r, a)
  }

  /** `a_translated`: the translation's text, or else the column's schema default (never the
      native value). */
  function TranslatedForm(d: Declaration, r: Record, a: string): (v: Option<string>)
    requires a in d.attributes
    ensures (forall u :: u in r.translations ==> u.attributeName != a) ==> v == ColumnDefault(d, a)
    ensures forall i :: IsFirst(r.translations, Named(a), i) ==> v == r.translations[i].text
  {
    match AttributeTranslation(r, a)
    case Some(t) => t.text
    case None => ColumnDefault(d, a)
  }

  /** The entry `translations.build` adds for attribute `a`: unverified, no user. */
  function Built(r: Record, a: string, value: Option<string>): Translation {
    Translation(OwnerOf(r), a, value, None, None)
  }

  /** `a_translated = value`: a blank value destroys the translation (if any); otherwise the
      translation's text is updated in place, or a new translation is built. Only the record's
      translations change. */
  function Assign(d: Declaration, r: Record, a: string, value: Option<string>): (r': Record)
    requires a in d.attributes
    ensures r' == r.(translations := r'.translations)
    ensures Blank(value) ==> |r'.translations| == |r.translations| - (if Count(r.translations, Named(a)) == 0 then 0 else 1)
    ensures Present(value) ==> |r'.translations| == |r.translations| + (if Count(r.translations, Named(a)) == 0 then 1 else 0)
    // An update keeps the row's owner, translator and user: a verified translation stays verified.
    ensures Present(value) && FirstIndex(r.translations, Named(a)).Some? ==>
              var i := FirstIndex(r.translations, Named(a)).value;
              i < |r'.translations| && r'.translations[i] == r.translations[i].(text := value)
    // A new translation belongs to the record, has no translator and no user.
    ensures Present(value) && Count(r.translations, Named(a)) == 0 ==>
              r'.translations[|r.translations|] == Translation(OwnerOf(r), a, value, None, None)
  {
    var ts := r.translations;
    match FirstIndex(ts, Named(a))
    case None =>
      SelectNone(ts, Named(a));
      if Blank(value) then r
      else r.(translations := ts + [Built(r, a, value)])
    case Some(i) =>
      assert ts[i] in Select(ts, Named(a));
      if Blank(value) then r.(translations := RemoveAt(ts, i))
      else r.(translations := ts[i := ts[i].(text := value)])
  }

  /** The three branches of the setter, as changes to the translation sequence. */
  lemma AssignShape(d: Declaration, r: Record, a: string, value: Option<string>)
    requires a in d.attributes
    ensures var ts := r.translations; var ts' := Assign(d, r, a, value).translations;
            FirstIndex(ts, Named(a)).None? ==> ts' == if Blank(value) then ts else ts + [Built(r, a, value)]
    ensures var ts := r.translations; var ts' := Assign(d, r, a, value).translations;
            var f := FirstIndex(ts, Named(a));
            f.Some? ==> ts' == if Blank(value) then RemoveAt(ts, f.value) else ts[f.value := ts[f.value].(text := value)]
  {
  }

  /** The setter leaves every other attribute's translations exactly as they were. */
  lemma AssignLeavesOthers(d: Declaration, r: Record, a: string, value: Option<string>, b: string)
    requires a in d.attributes && b != a
    ensures Select(Assign(d, r, a, value).translations, Named(b)) == Select(r.translations, Named(b))
  {
    var ts := r.translations;
    AssignShape(d, r, a, value);
    match FirstIndex(ts, Named(a))
    case None =>
      if Present(value) {
        SelectAppend(ts, [Built(r, a, value)], Named(b));
      }
    case Some(i) =>
      if Blank(value) {
        RemoveUnselected(ts, i, Named(b));
      } else {
        ReplaceUnselected(ts, i, ts[i].(text := value), Named(b));
      }
  }

  /** Round trip: after `a_translated = value` with a non-blank value, `a_translated` reads
      `value`, and so does `localized_a` outside the record's own language. */
  lemma AssignThenRead(d: Declaration, r: Record, a: string, value: Option<string>, current: string)
    requires a in d.attributes && Present(value)
    ensures TranslatedForm(d, Assign(d, r, a, value), a) == value
    ensures !InOwnLanguage(r, current) ==> Localized(d, Assign(d, r, a, value), a, current) == value
  {
    var ts := r.translations;
    var r' := Assign(d, r, a, value);
    AssignShape(d, r, a, value);
    match FirstIndex(ts, Named(a))
    case None =>
      assert IsFirst(r'.translations, Named(a), |ts|);
    case Some(i) =>
      assert IsFirst(r'.translations, Named(a), i);
  }

  /** Clearing: when the record holds at most one translation per attribute, `a_translated = v`
      with a blank `v` leaves no translation of `a`, so `a_translated` falls back to the column
      default rather than the old text. */
  lemma AssignBlankClears(d: Declaration, r: Record, a: string, value: Option<string>)
    requires a in d.attributes && Blank(value) && UniqueNames(r.translations)
    ensures forall u :: u in Assign(d, r, a, value).translations ==> u.attributeName != a
    ensures TranslatedForm(d, Assign(d, r, a, value), a) == ColumnDefault(d, a)
  {
    var ts := r.translations;
    AssignShape(d, r, a, value);
    match FirstIndex(ts, Named(a))
    case None =>
    case Some(i) =>
      var ts' := RemoveAt(ts, i);
      forall u | u in ts'
        ensures u.attributeName != a
      {
        var k :| 0 <= k < |ts'| && ts'[k] == u;
        assert u == ts[if k < i then k else k + 1];
      }
  }

  /** The setter keeps at most one translation per attribute. */
  lemma AssignKeepsUniqueNames(d: Declaration, r: Record, a: string, value: Option<string>)
    requires a in d.attributes && UniqueNames(r.translations)
    ensures UniqueNames(Assign(d, r, a, value).translations)
  {
    var ts := r.translations;
    AssignShape(d, r, a, value);
    match FirstIndex(ts, Named(a))
    case None =>
      if Present(value) {
        UniqueNamesAppend(ts, Built(r, a, value));
      }
    case Some(i) =>
      if Blank(value) {
        UniqueNamesRemove(ts, i);
      } else {
        UniqueNamesReplace(ts, i, ts[i].(text := value));
      }
  }

  /** The setter never leaves a blank translation behind: blank input deletes instead. */
  lemma AssignStoresNoBlank(d: Declaration, r: Record, a: string, value: Option<string>)
    requires a in d.attributes && forall u :: u in r.translations ==> Present(u.text)
    ensures forall u :: u in Assign(d, r, a, value).translations ==> Present(u.text)
  {
    var ts := r.translations;
    AssignShape(d, r, a, value);
    match FirstIndex(ts, Named(a))
    case None =>
    case Some(i) =>
      if Present(value) {
        var x := ts[i].(text := value);
        assert forall u :: u in ts[i := x] ==> u in ts || u == x;
      }
  }
}

=== FILE: cascade.dfy ===
/** `update_associations_translated_cache`: the AND over the configured associations, written
    to the `associations_translated` column when the table has it. */
module Cascade {
  import opened Wrappers
  import opened Entries
  import opened Records
  import opened Registry
  import opened Completeness

  /** The registered translatable classes and the translations table. */
  datatype Db = Db(classes: map<string, Declaration>, store: seq<Translation>)

  /** What `send(association)` returns: one record, a relation over records of one class, or nil. */
  datatype Target = Single(record: Record) | Collection(typeName: string, members: seq<Record>) | Nil


  /** The block of `all?` for one association: a single record must be `translation_complete?`,
      a relation must have an empty `translation_incomplete`. An undefined association, nil, or
      a class that is not translatable raises. */
  function AssociationTranslated(db: Db, links: map<string, Target>, name: string): (r: Result<bool, Failure>)
    ensures r.Err? <==> name !in links || links[name].Nil?
                        || (links[name].Single? && links[name].record.typeName !in db.classes)
                        || (links[name].Collection? && links[name].typeName !in db.classes)
    ensures r.Ok? && links[name].Single?
            ==> (r.value <==> !InIncompleteScope(db.classes[links[name].record.typeName], db.store, links[name].record))
    ensures r.Ok? && links[name].Collection?
            ==> (r.value <==> forall m :: m in links[name].members
                                ==> !InIncompleteScope(db.classes[links[name].typeName], db.store, m))
  {
    if name !in links then Err(NoMethod(name))
    else match links[name]
      case Single(rec) =>
        if rec.typeName in db.classes then Ok(TranslationComplete(db.classes[rec.typeName], db.store, rec))
        else Err(NoMethod("translation_complete?"))
      case Collection(typeName, members) =>
        if typeName in db.classes then
          Ok(forall m :: m in members ==> !InIncompleteScope(db.classes[typeName], db.store, m))
        else Err(NoMethod("translation_incomplete"))
      case Nil => Err(NoMethod("translation_incomplete"))
  }

  /** `Array(names).all? { ... }`: stops at the first association that is not translated or
      that raises. */
  function AllTranslated(db: Db, links: map<string, Target>, names: seq<string>): (r: Result<bool, Failure>)
    ensures r == Ok(true) <==> forall i :: 0 <= i < |names| ==> AssociationTranslated(db, links, names[i]) == Ok(true)
    ensures r != Ok(true) ==> exists i :: 0 <= i < |names| && AssociationTranslated(db, links, names[i]) == r
                                          && forall j :: 0 <= j < i ==> AssociationTranslated(db, links, names[j]) == Ok(true)
  {
    if names == [] then Ok(true)
    else match AssociationTranslated(db, links, names[0])
      case Err(e) => Err(e)
      case Ok(false) => Ok(false)
      case Ok(true) =>
        AllTranslated(db, links, names[1..])
  }

  /** The refresh run after saving `r`, of class `d`: recompute the AND and, when the table has
      the cache column, store it in the record's row without other changes. */
  function RefreshCache(db: Db, d: Declaration, r: Record, links: map<string, Target>): (res: Result<Record, Failure>)
    ensures res.Err? <==> AllTranslated(db, links, AssociationNames(d.options)).Err?
    ensures res.Ok? && !HasCacheColumn(d) ==> res.value == r
    ensures res.Ok? && HasCacheColumn(d)
            ==> res.value == r.(associationsTranslated := Some(AllTranslated(db, links, AssociationNames(d.options)) == Ok(true)))
  {
    match AllTranslated(db, links, AssociationNames(d.options))
    case Err(e) => Err(e)
    case Ok(b) => if HasCacheColumn(d) then Ok(r.(associationsTranslated := Some(b))) else Ok(r)
  }

  /** With no associations configured the cached flag becomes true. */
  lemma NoAssociationsCacheTrue(db: Db, d: Declaration, r: Record, links: map<string, Target>)
    requires AssociationNames(d.options) == [] && HasCacheColumn(d)
    ensures RefreshCache(db, d, r, links) == Ok(r.(associationsTranslated := Some(true)))
  {
  }

  /** A parent with one single association `c` and one collection association `k`: the refresh
      caches true exactly when `c` is `translation_complete?` and no member of `k` is in the
      incomplete scope. */
  lemma SingleAndCollection(db: Db, d: Declaration, p: Record, c: string, k: string, child: Record,
                            typeName: string, members: seq<Record>)
    requires d.options.translatableAssociations == Several([c, k]) && HasCacheColumn(d)
    requires c != k && child.typeName in db.classes && typeName in db.classes
    ensures var links := map[c := Single(child), k := Collection(typeName, members)];
            var res := RefreshCache(db, d, p, links);
            && res.Ok?
            && (res.value.associationsTranslated == Some(true)
                <==> TranslationComplete(db.classes[child.typeName], db.store, child)
                     && forall m :: m in members ==> !InIncompleteScope(db.classes[typeName], db.store, m))
  {
    var links := map[c := Single(child), k := Collection(typeName, members)];
    var names := [c, k];
    assert AssociationNames(d.options) == names;
    assert names[0] == c && names[1] == k;
    var rc := AssociationTranslated(db, links, c);
    var rk := AssociationTranslated(db, links, k);
    assert rc.Ok? && rk.Ok?;
    if AllTranslated(db, links, names) != Ok(true) {
      var i :| 0 <= i < 2 && AssociationTranslated(db, links, names[i]) == AllTranslated(db, links, names);
    }
  }
}

=== FILE: completeness.dfy ===
/** The `translation_complete` / `translation_incomplete` scopes and the instance predicates
    `translation_complete?` / `translation_incomplete?`, as the code computes them. */
module Completeness {
  import opened Wrappers
  import opened Text
  import opened Sql
  import opened Entries
  import opened Records
  import opened Registry

  /** The sum of `case when <attr> ~ '\S+' then 1 else 0 end` over `attrs`: how many of them
      have a non-blank native value (a NULL column counts 0). */
  function Filled(attrs: seq<string>, r: Record): (n: nat)
    ensures n <= |attrs|
    ensures n == 0 <==> forall i :: 0 <= i < |attrs| ==> Blank(NativeValue(r, attrs[i]))
  {
    if attrs == [] then 0
    else (if Present(NativeValue(r, attrs[0])) then 1 else 0) + Filled(attrs[1..], r)
  }

  /** `required(r)`: the translations the record needs. */
  function Required(d: Declaration, r: Record): nat {
    Filled(d.attributes, r)
  }

  /** `have(r)`: the class's translation rows for the record whose text is not blank, of any
      attribute and any translator. */
  function Have(d: Declaration, store: seq<Translation>, id: int): nat {
    Count(store, Counted(Owner(d.typeName, id)))
  }

  /** The `fully_translated` subquery evaluated for outer row `r`: the ids of the groups of
      non-blank rows of the class whose size equals `required(r)`. */
  function FullyTranslated(d: Declaration, store: seq<Translation>, r: Record): set<int> {
    set t | t in store && t.owner.typeName == d.typeName && Present(t.text)
                       && Have(d, store, t.owner.id) == Required(d, r) :: t.owner.id
  }

  /** The condition of `translation_incomplete` for row `r`. */
  function IncompleteCondition(d: Declaration, store: seq<Translation>, r: Record): Tri {
    var own := And(FromBool(Required(d, r) > 0), FromBool(r.id !in FullyTranslated(d, store, r)));
    if HasCacheColumn(d) then Or(Not(FromColumn(r.associationsTranslated)), own) else own
  }

  /** The condition of `translation_complete` for row `r`. */
  function CompleteCondition(d: Declaration, store: seq<Translation>, r: Record): Tri {
    var own := FromBool(r.id in FullyTranslated(d, store, r));
    if HasCacheColumn(d) then And(FromColumn(r.associationsTranslated), own) else own
  }

  predicate InIncompleteScope(d: Declaration, store: seq<Translation>, r: Record) {
    Keeps(IncompleteCondition(d, store, r))
  }

  predicate InCompleteScope(d: Declaration, store: seq<Translation>, r: Record) {
    Keeps(CompleteCondition(d, store, r))
  }

  /** `translation_incomplete?`: the stored record is in the incomplete scope. */
  predicate TranslationIncomplete(d: Declaration, store: seq<Translation>, r: Record) {
    InIncompleteScope(d, store, r)
  }

  /** `translation_complete?`. */
  predicate TranslationComplete(d: Declaration, store: seq<Translation>, r: Record) {
    !TranslationIncomplete(d, store, r)
  }

  /** The record's own group is in the subquery exactly when it needs translations and its
      count of non-blank rows equals the number it needs. */
  lemma FullyTranslatedMeaning(d: Declaration, store: seq<Translation>, r: Record)
    ensures r.id in FullyTranslated(d, store, r)
            <==> Required(d, r) > 0 && Have(d, store, r.id) == Required(d, r)
  {
    var o := Owner(d.typeName, r.id);
    if r.id in FullyTranslated(d, store, r) {
      var t :| t in store && t.owner.typeName == d.typeName && Present(t.text)
               && Have(d, store, t.owner.id) == Required(d, r) && t.owner.id == r.id;
      assert t.owner == o;
      assert t in Select(store, Counted(o));
    }
    if Required(d, r) > 0 && Have(d, store, r.id) == Required(d, r) {
      var t := Select(store, Counted(o))[0];
      assert t in Select(store, Counted(o));
      assert t.owner.id == r.id;
    }
  }

  /** What the incomplete scope selects: a record whose cached flag is false, or one that needs
      translations and whose non-blank row count differs from the number it needs. */
  lemma IncompleteScopeMeaning(d: Declaration, store: seq<Translation>, r: Record)
    ensures InIncompleteScope(d, store, r)
            <==> (HasCacheColumn(d) && r.associationsTranslated == Some(false))
                 || (Required(d, r) > 0 && Have(d, store, r.id) != Required(d, r))
  {
    FullyTranslatedMeaning(d, store, r);
  }

  /** What the complete scope selects: a record whose cached flag (if the column exists) is
      true, that needs translations and has as many non-blank rows as it needs. */
  lemma CompleteScopeMeaning(d: Declaration, store: seq<Translation>, r: Record)
    ensures InCompleteScope(d, store, r)
            <==> (HasCacheColumn(d) ==> r.associationsTranslated == Some(true))
                 && Required(d, r) > 0 && Have(d, store, r.id) == Required(d, r)
  {
    FullyTranslatedMeaning(d, store, r);
  }

  /** `translation_complete?` holds exactly when `translation_incomplete?` does not: when the
      cached flag is not false and the record needs nothing or has as many rows as it needs. */
  lemma InstancePredicates(d: Declaration, store: seq<Translation>, r: Record)
    ensures TranslationComplete(d, store, r) != TranslationIncomplete(d, store, r)
    ensures TranslationComplete(d, store, r)
            <==> (HasCacheColumn(d) ==> r.associationsTranslated != Some(false))
                 && (Required(d, r) == 0 || Have(d, store, r.id) == Required(d, r))
  {
    IncompleteScopeMeaning(d, store, r);
  }

  /** A record with nothing to translate is never in the complete scope, whatever rows exist. */
  lemma NothingRequiredNeverInCompleteScope(d: Declaration, store: seq<Translation>, r: Record)
    requires Required(d, r) == 0
    ensures !InCompleteScope(d, store, r)
  {
    CompleteScopeMeaning(d, store, r);
  }

  /** Without the cache column, a record with nothing to translate is never incomplete, so
      `translation_complete?` holds, yet it is in neither scope. */
  lemma NothingRequiredInNeitherScope(d: Declaration, store: seq<Translation>, r: Record)
    requires !HasCacheColumn(d) && Required(d, r) == 0
    ensures !InIncompleteScope(d, store, r) && !InCompleteScope(d, store, r)
    ensures TranslationComplete(d, store, r)
  {
    IncompleteScopeMeaning(d, store, r);
    CompleteScopeMeaning(d, store, r);
  }

  /** For a record that needs translations and whose cached flag (if any) is true, the two
      scopes split: it is in exactly one of them. */
  lemma ScopesSplitWhenRequired(d: Declaration, store: seq<Translation>, r: Record)
    requires Required(d, r) > 0
    requires HasCacheColumn(d) ==> r.associationsTranslated == Some(true)
    ensures InCompleteScope(d, store, r) != InIncompleteScope(d, store, r)
    ensures InCompleteScope(d, store, r) == TranslationComplete(d, store, r)
  {
    IncompleteScopeMeaning(d, store, r);
    CompleteScopeMeaning(d, store, r);
  }

  /** Every row marked unverified (translator cleared). */
  function ClearTranslators(store: seq<Translation>): (s: seq<Translation>)
    ensures |s| == |store|
    ensures forall i :: 0 <= i < |store| ==> s[i] == store[i].(translatorId := None)
  {
    if store == [] then [] else [store[0].(translatorId := None)] + ClearTranslators(store[1..])
  }

  lemma {:induction false} ClearTranslatorsKeepsCount(store: seq<Translation>, o: Owner)
    ensures Count(ClearTranslators(store), Counted(o)) == Count(store, Counted(o))
  {
    if store != [] {
      var s := ClearTranslators(store);
      assert s[1..] == ClearTranslators(store[1..]);
      ClearTranslatorsKeepsCount(store[1..], o);
    }
  }

  /** The scopes ignore `translator_id`: unverified rows count like verified ones. */
  lemma ScopesIgnoreTranslator(d: Declaration, store: seq<Translation>, r: Record)
    ensures InCompleteScope(d, ClearTranslators(store), r) == InCompleteScope(d, store, r)
    ensures InIncompleteScope(d, ClearTranslators(store), r) == InIncompleteScope(d, store, r)
  {
    ClearTranslatorsKeepsCount(store, Owner(d.typeName, r.id));
    CompleteScopeMeaning(d, store, r);
    CompleteScopeMeaning(d, ClearTranslators(store), r);
    IncompleteScopeMeaning(d, store, r);
    IncompleteScopeMeaning(d, ClearTranslators(store), r);
  }

  // ---------------------------------------------------------------------------------------
  // The rule the scopes evidently aim at, and how the code departs from it.

  /** Every translatable attribute with a non-blank native value has a non-blank translation
      row for this record. */
  predicate EveryRequiredTranslated(d: Declaration, store: seq<Translation>, r: Record) {
    forall a :: a in d.attributes && Present(NativeValue(r, a))
      ==> exists t :: t in store && Matches(t, Counted(Owner(d.typeName, r.id))) && t.attributeName == a
  }

  /** The complete scope with both departures corrected: it asks for every required attribute
      to be translated, so a record that needs nothing is included and rows of other attributes
      do not count. */
  function CorrectedCompleteCondition(d: Declaration, store: seq<Translation>, r: Record): Tri {
    var own := FromBool(EveryRequiredTranslated(d, store, r));
    if HasCacheColumn(d) then And(FromColumn(r.associationsTranslated), own) else own
  }

  function CorrectedIncompleteCondition(d: Declaration, store: seq<Translation>, r: Record): Tri {
    var own := FromBool(!EveryRequiredTranslated(d, store, r));
    if HasCacheColumn(d) then Or(Not(FromColumn(r.associationsTranslated)), own) else own
  }

  /** The corrected scopes split every record whose cached flag (if the column exists) is
      not NULL, and a record with nothing to translate lands on the complete side. */
  lemma CorrectedScopesSplit(d: Declaration, store: seq<Translation>, r: Record)
    requires HasCacheColumn(d) ==> r.associationsTranslated.Some?
    ensures Keeps(CorrectedCompleteCondition(d, store, r)) != Keeps(CorrectedIncompleteCondition(d, store, r))
    ensures Required(d, r) == 0 && (HasCacheColumn(d) ==> r.associationsTranslated == Some(true))
            ==> Keeps(CorrectedCompleteCondition(d, store, r))
  {
    if Required(d, r) == 0 {
      forall a | a in d.attributes
        ensures Blank(NativeValue(r, a))
      {
        var i :| 0 <= i < |d.attributes| && d.attributes[i] == a;
      }
    }
  }

  /** A row for an attribute the record does not need (a blank native value, or not
      translatable) leaves the corrected scopes unchanged. */
  lemma CorrectedIgnoresStrayRows(d: Declaration, store: seq<Translation>, r: Record, t: Translation)
    requires !(t.attributeName in d.attributes && Present(NativeValue(r, t.attributeName)))
    ensures EveryRequiredTranslated(d, store + [t], r) == EveryRequiredTranslated(d, store, r)
    ensures CorrectedCompleteCondition(d, store + [t], r) == CorrectedCompleteCondition(d, store, r)
    ensures CorrectedIncompleteCondition(d, store + [t], r) == CorrectedIncompleteCondition(d, store, r)
  {
    var o := Owner(d.typeName, r.id);
    if EveryRequiredTranslated(d, store + [t], r) {
      forall a | a in d.attributes && Present(NativeValue(r, a))
        ensures exists u :: u in store && Matches(u, Counted(o)) && u.attributeName == a
      {
        var u :| u in store + [t] && Matches(u, Counted(o)) && u.attributeName == a;
        assert u != t;
      }
    }
  }

  /** A store the code's count handles: declared attributes are distinct, the table has one row
      per triple, and every non-blank row of the record is for an attribute it needs. */
  ghost predicate Tidy(d: Declaration, store: seq<Translation>, r: Record) {
    && (forall i, j :: 0 <= i < j < |d.attributes| ==> d.attributes[i] != d.attributes[j])
    && UniqueKeys(store)
    && forall t :: t in store && Matches(t, Counted(Owner(d.typeName, r.id)))
         ==> t.attributeName in d.attributes && Present(NativeValue(r, t.attributeName))
  }

  ghost function RequiredSet(attrs: seq<string>, r: Record): set<string> {
    set a | a in attrs && Present(NativeValue(r, a))
  }

  ghost function TranslatedSet(store: seq<Translation>, o: Owner): set<string> {
    set t | t in store && Matches(t, Counted(o)) :: t.attributeName
  }

  lemma {:induction false} FilledIsCardinality(attrs: seq<string>, r: Record)
    requires forall i, j :: 0 <= i < j < |attrs| ==> attrs[i] != attrs[j]
    ensures Filled(attrs, r) == |RequiredSet(attrs, r)|
  {
    if attrs != [] {
      var rest := attrs[1..];
      FilledIsCardinality(rest, r);
      assert attrs[0] !in rest by {
        forall k | 0 <= k < |rest|
          ensures rest[k] != attrs[0]
        {
          assert rest[k] == attrs[k + 1];
        }
      }
      assert attrs == [attrs[0]] + rest;
      if Present(NativeValue(r, attrs[0])) {
        assert RequiredSet(attrs, r) == {attrs[0]} + RequiredSet(rest, r);
      } else {
        assert RequiredSet(attrs, r) == RequiredSet(rest, r);
      }
    }
  }

  /** Under unique keys the first row's attribute is not among the later counted ones. */
  lemma HeadNameFresh(store: seq<Translation>, o: Owner)
    requires UniqueKeys(store) && store != [] && Matches(store[0], Counted(o))
    ensures store[0].attributeName !in TranslatedSet(store[1..], o)
  {
    var rest := store[1..];
    UniqueKeysTail(store);
    forall u | u in rest && Matches(u, Counted(o))
      ensures u.attributeName != store[0].attributeName
    {
      var k :| 0 <= k < |rest| && rest[k] == u;
      assert u == store[k + 1];
    }
  }

  lemma TranslatedSetCons(store: seq<Translation>, o: Owner)
    requires store != []
    ensures TranslatedSet(store, o)
            == (if Matches(store[0], Counted(o)) then {store[0].attributeName} else {}) + TranslatedSet(store[1..], o)
  {
    assert store == [store[0]] + store[1..];
    assert forall t :: t in store <==> t == store[0] || t in store[1..];
  }

  lemma {:induction false} CountIsCardinality(store: seq<Translation>, o: Owner)
    requires UniqueKeys(store)
    ensures Count(store, Counted(o)) == |TranslatedSet(store, o)|
  {
    if store != [] {
      var rest := store[1..];
      UniqueKeysTail(store);
      CountIsCardinality(rest, o);
      TranslatedSetCons(store, o);
      assert Select(store, Counted(o))
             == (if Matches(store[0], Counted(o)) then [store[0]] else []) + Select(rest, Counted(o));
      if Matches(store[0], Counted(o)) {
        HeadNameFresh(store, o);
      }
    }
  }

  lemma SubsetOfEqualSize<T>(a: set<T>, b: set<T>)
    requires a <= b && |a| == |b|
    ensures a == b
  {
    assert b == a + (b - a);
    assert |b| == |a| + |b - a|;
  }

  /** On a tidy store the code's count agrees with the intended rule: the record has as many
      non-blank rows as it needs exactly when every attribute it needs is translated. */
  lemma TidyCountMeansEveryRequired(d: Declaration, store: seq<Translation>, r: Record)
    requires Tidy(d, store, r)
    ensures Have(d, store, r.id) == Required(d, r) <==> EveryRequiredTranslated(d, store, r)
  {
    var o := Owner(d.typeName, r.id);
    var req := RequiredSet(d.attributes, r);
    var got := TranslatedSet(store, o);
    FilledIsCardinality(d.attributes, r);
    CountIsCardinality(store, o);
    assert got <= req;
    if EveryRequiredTranslated(d, store, r) {
      forall a | a in req
        ensures a in got
      {
        var t :| t in store && Matches(t, Counted(o)) && t.attributeName == a;
      }
      assert got == req;
    }
    if Have(d, store, r.id) == Required(d, r) {
      SubsetOfEqualSize(got, req);
      forall a | a in d.attributes && Present(NativeValue(r, a))
        ensures exists t :: t in store && Matches(t, Counted(o)) && t.attributeName == a
      {
        assert a in got;
      }
    }
  }

  /** On a tidy store the code's complete scope is the corrected one minus the records that
      need nothing. */
  lemma TidyCompleteScopeAgrees(d: Declaration, store: seq<Translation>, r: Record)
    requires Tidy(d, store, r)
    ensures InCompleteScope(d, store, r)
            <==> Keeps(CorrectedCompleteCondition(d, store, r)) && Required(d, r) > 0
  {
    TidyCountMeansEveryRequired(d, store, r);
    CompleteScopeMeaning(d, store, r);
  }
}

=== FILE: entries.dfy ===
/** Rows of the `translations` table, and the conditions the plugin selects rows by. */
module Entries {
  import opened Wrappers
  import opened Text

  /** The polymorphic owner of a row: `translatable_type` and `translatable_id`. */
  datatype Owner = Owner(typeName: string, id: int)

  /** A translation row. A null `translatorId` marks an unverified translation. */
  datatype Translation = Translation(
    owner: Owner,
    attributeName: string,
    text: Option<string>,
    translatorId: Option<int>,
    userId: Option<int>)

  /** The identity of a row: the (type, id, attribute name) triple. */
  datatype Key = Key(owner: Owner, attributeName: string)

  function KeyOf(t: Translation): Key {
    Key(t.owner, t.attributeName)
  }

  /** The conditions rows are looked up by. */
  datatype Selector =
    | Named(name: string)                // attribute_name = name
    | Keyed(key: Key)                    // the identity triple
    | OwnedBy(owner: Owner)              // the owner's `translations` collection
    | Counted(owner: Owner)              // the owner's rows whose text matches \S+
    | Verified                           // translator_id IS NOT NULL
    | Unverified                         // translator_id IS NULL
    | ForUser(userId: int)               // user_id = userId

  predicate Matches(t: Translation, s: Selector) {
    match s
    case Named(n) => t.attributeName == n
    case Keyed(k) => KeyOf(t) == k
    case OwnedBy(o) => t.owner == o
    case Counted(o) => t.owner == o && Present(t.text)
    case Verified => t.translatorId.Some?
    case Unverified => t.translatorId.None?
    case ForUser(u) => t.userId == Some(u)
  }

  /** `i` is the position of the first row of `ts` that `s` selects. */
  ghost predicate IsFirst(ts: seq<Translation>, s: Selector, i: int) {
    0 <= i < |ts| && Matches(ts[i], s) && forall j :: 0 <= j < i ==> !Matches(ts[j], s)
  }

  /** The position of the first selected row (Ruby's `detect`, or a lookup with no ordering,
      read as the first row in table order). */
  function FirstIndex(ts: seq<Translation>, s: Selector): (r: Option<nat>)
    ensures r.Some? ==> IsFirst(ts, s, r.value)
    ensures r.None? <==> forall j :: 0 <= j < |ts| ==> !Matches(ts[j], s)
  {
    if ts == [] then None
    else if Matches(ts[0], s) then Some(0)
    else match FirstIndex(ts[1..], s)
      case None => None
      case Some(i) => Some(i + 1)
  }

  /** The selected rows, in table order. */
  function Select(ts: seq<Translation>, s: Selector): (r: seq<Translation>)
    ensures |r| <= |ts|
    ensures forall t :: t in r <==> t in ts && Matches(t, s)
  {
    if ts == [] then []
    else
      assert ts == [ts[0]] + ts[1..];
      (if Matches(ts[0], s) then [ts[0]] else []) + Select(ts[1..], s)
  }

  /** A selection keeps each matching row exactly as often as the table holds it, and drops
      every other row. */
  lemma {:induction false} SelectMultiset(ts: seq<Translation>, s: Selector)
    ensures forall t :: multiset(Select(ts, s))[t] == if Matches(t, s) then multiset(ts)[t] else 0
  {
    if ts != [] {
      SelectMultiset(ts[1..], s);
      assert ts == [ts[0]] + ts[1..];
    }
  }

  /** `count(*)` of the selected rows. */
  function Count(ts: seq<Translation>, s: Selector): nat {
    |Select(ts, s)|
  }

  lemma {:induction false} SelectAppend(a: seq<Translation>, b: seq<Translation>, s: Selector)
    ensures Select(a + b, s) == Select(a, s) + Select(b, s)
  {
    if a == [] {
      assert a + b == b;
    } else {
      assert (a + b)[0] == a[0];
      assert (a + b)[1..] == a[1..] + b;
      SelectAppend(a[1..], b, s);
    }
  }

  /** Selecting from a sequence split around position `i`. */
  lemma SelectAround(ts: seq<Translation>, i: int, s: Selector)
    requires 0 <= i < |ts|
    ensures Select(ts, s) == Select(ts[..i], s) + Select([ts[i]], s) + Select(ts[i + 1..], s)
  {
    assert ts == ts[..i] + [ts[i]] + ts[i + 1..];
    SelectAppend(ts[..i] + [ts[i]], ts[i + 1..], s);
    SelectAppend(ts[..i], [ts[i]], s);
  }

  /** Nothing is selected when no row matches. */
  lemma {:induction false} SelectNone(ts: seq<Translation>, s: Selector)
    requires forall t :: t in ts ==> !Matches(t, s)
    ensures Select(ts, s) == []
  {
    if ts != [] {
      assert ts[0] in ts;
      SelectNone(ts[1..], s);
    }
  }

  /** Replacing a row that `s` does not select by another it does not select leaves the
      selection unchanged. */
  lemma ReplaceUnselected(ts: seq<Translation>, i: int, x: Translation, s: Selector)
    requires 0 <= i < |ts| && !Matches(ts[i], s) && !Matches(x, s)
    ensures Select(ts[i := x], s) == Select(ts, s)
  {
    var ts' := ts[i := x];
    SelectAround(ts, i, s);
    SelectAround(ts', i, s);
    assert ts'[..i] == ts[..i] && ts'[i + 1..] == ts[i + 1..];
  }

  lemma SelectUnmatched(x: Translation, s: Selector)
    requires !Matches(x, s)
    ensures Select([x], s) == []
  {
    assert [x][1..] == [];
  }

  /** The sequence without position `i`: later rows shift down by one. */
  function RemoveAt(ts: seq<Translation>, i: int): (r: seq<Translation>)
    requires 0 <= i < |ts|
    ensures |r| == |ts| - 1
    ensures forall k :: 0 <= k < i ==> r[k] == ts[k]
    ensures forall k :: i <= k < |r| ==> r[k] == ts[k + 1]
    ensures forall u :: u in r ==> u in ts
  {
    assert forall u :: u in ts[i + 1..] ==> u in ts;
    ts[..i] + ts[i + 1..]
  }

  lemma {:induction false} DropUnmatched(left: seq<Translation>, x: Translation, right: seq<Translation>, s: Selector)
    requires !Matches(x, s)
    ensures Select(left + [x] + right, s) == Select(left + right, s)
  {
    SelectAppend(left + [x], right, s);
    SelectAppend(left, [x], s);
    SelectAppend(left, right, s);
    SelectUnmatched(x, s);
  }

  /** Removing a row that `s` does not select leaves the selection unchanged. */
  lemma RemoveUnselected(ts: seq<Translation>, i: int, s: Selector)
    requires 0 <= i < |ts| && !Matches(ts[i], s)
    ensures Select(RemoveAt(ts, i), s) == Select(ts, s)
  {
    assert ts == ts[..i] + [ts[i]] + ts[i + 1..];
    DropUnmatched(ts[..i], ts[i], ts[i + 1..], s);
  }

  lemma FirstIndexOfFirst(ts: seq<Translation>, s: Selector, i: int)
    requires IsFirst(ts, s, i)
    ensures FirstIndex(ts, s) == Some(i)
  {
  }

  /** No two rows of `ts` are both selected by `s`. */
  ghost predicate Single(ts: seq<Translation>, s: Selector) {
    forall i, j :: 0 <= i < j < |ts| && Matches(ts[i], s) ==> !Matches(ts[j], s)
  }

  lemma {:induction false} AtMostOne(ts: seq<Translation>, s: Selector)
    requires Single(ts, s)
    ensures Count(ts, s) <= 1
  {
    if ts != [] {
      assert Single(ts[1..], s);
      AtMostOne(ts[1..], s);
      if Matches(ts[0], s) {
        forall t | t in ts[1..]
          ensures !Matches(t, s)
        {
          var k :| 0 <= k < |ts[1..]| && ts[1..][k] == t;
          assert ts[k + 1] == t;
        }
        SelectNone(ts[1..], s);
      }
    }
  }

  /** At most one row per identity triple. */
  ghost predicate UniqueKeys(ts: seq<Translation>) {
    forall i, j :: 0 <= i < j < |ts| ==> KeyOf(ts[i]) != KeyOf(ts[j])
  }

  lemma UniqueKeysTail(ts: seq<Translation>)
    requires UniqueKeys(ts) && ts != []
    ensures UniqueKeys(ts[1..])
    ensures forall k :: 1 <= k < |ts| ==> KeyOf(ts[k]) != KeyOf(ts[0])
  {
    var rest := ts[1..];
    forall i, j | 0 <= i < j < |rest|
      ensures KeyOf(rest[i]) != KeyOf(rest[j])
    {
      assert rest[i] == ts[i + 1] && rest[j] == ts[j + 1];
    }
  }

  /** At most one row per attribute name: what unique keys give one owner's collection. */
  ghost predicate UniqueNames(ts: seq<Translation>) {
    forall i, j :: 0 <= i < j < |ts| ==> ts[i].attributeName != ts[j].attributeName
  }

  lemma UniqueNamesAppend(ts: seq<Translation>, x: Translation)
    requires UniqueNames(ts) && forall u :: u in ts ==> u.attributeName != x.attributeName
    ensures UniqueNames(ts + [x])
  {
    var ts' := ts + [x];
    forall p, q | 0 <= p < q < |ts'|
      ensures ts'[p].attributeName != ts'[q].attributeName
    {
      assert ts'[p] == ts[p] && ts[p] in ts;
    }
  }

  lemma UniqueNamesRemove(ts: seq<Translation>, i: int)
    requires UniqueNames(ts) && 0 <= i < |ts|
    ensures UniqueNames(RemoveAt(ts, i))
  {
    var ts' := RemoveAt(ts, i);
    forall p, q | 0 <= p < q < |ts'|
      ensures ts'[p].attributeName != ts'[q].attributeName
    {
      assert ts'[p] == ts[if p < i then p else p + 1];
    }
  }

  lemma UniqueNamesReplace(ts: seq<Translation>, i: int, x: Translation)
    requires UniqueNames(ts) && 0 <= i < |ts| && x.attributeName == ts[i].attributeName
    ensures UniqueNames(ts[i := x])
  {
  }

  /** The owner's collection, read from a table with unique keys, has one row per attribute. */
  lemma {:induction false} OwnedRowsUniqueNames(ts: seq<Translation>, o: Owner)
    requires UniqueKeys(ts)
    ensures UniqueNames(Select(ts, OwnedBy(o)))
  {
    if ts != [] {
      var rest := ts[1..];
      UniqueKeysTail(ts);
      OwnedRowsUniqueNames(rest, o);
      var tail := Select(rest, OwnedBy(o));
      if Matches(ts[0], OwnedBy(o)) {
        assert Select(ts, OwnedBy(o)) == [ts[0]] + tail;
        forall j | 0 <= j < |tail|
          ensures tail[j].attributeName != ts[0].attributeName
        {
          assert tail[j] in tail;
          var k :| 0 <= k < |rest| && rest[k] == tail[j];
          assert KeyOf(ts[0]) != KeyOf(ts[k + 1]);
        }
        var all := [ts[0]] + tail;
        forall i, j | 0 <= i < j < |all|
          ensures all[i].attributeName != all[j].attributeName
        {
          if i > 0 {
            assert all[i] == tail[i - 1] && all[j] == tail[j - 1];
          } else {
            assert all[j] == tail[j - 1];
          }
        }
      } else {
        assert Select(ts, OwnedBy(o)) == tail;
      }
    }
  }

  /** Unique keys single out at most one row per triple. */
  lemma UniqueKeysSingle(ts: seq<Translation>, k: Key)
    requires UniqueKeys(ts)
    ensures Count(ts, Keyed(k)) <= 1
  {
    AtMostOne(ts, Keyed(k));
  }
}

=== FILE: locale.dfy ===
/** The locale helpers: `set_locale` (run before validation on create) and `target_locale`. */
module Locale {
  import opened Wrappers
  import opened Text
  import opened Records

  /** `set_locale` with current locale `current`: fills the record's locale only when blank. */
  function SetLocale(r: Record, current: string): (r': Record)
    ensures r' == r.(locale := r'.locale)
    ensures Present(r.locale) ==> r' == r
    ensures Blank(r.locale) ==> r'.locale == Some(current)
  {
    if Blank(r.locale) then r.(locale := Some(current)) else r
  }

  /** The locale is set once: a second `set_locale`, under any current locale, changes nothing
      once the first has filled it with a non-blank value. */
  lemma SetLocaleOnce(r: Record, first: string, later: string)
    requires Present(Some(first))
    ensures SetLocale(SetLocale(r, first), later) == SetLocale(r, first)
    ensures Present(SetLocale(r, first).locale)
  {
  }

  /** `to_s` of the `i`-th available locale; a missing one is nil, whose `to_s` is "". */
  function Nth(available: seq<string>, i: nat): string {
    if i < |available| then available[i] else ""
  }

  /** `target_locale`: the second available locale when the record's locale is the first,
      otherwise the first. */
  function TargetLocale(r: Record, available: seq<string>): (t: string)
    ensures r.locale == Some(Nth(available, 0)) ==> t == Nth(available, 1)
    ensures r.locale != Some(Nth(available, 0)) ==> t == Nth(available, 0)
  {
    if r.locale == Some(Nth(available, 0)) then Nth(available, 1) else Nth(available, 0)
  }

  /** With two distinct available locales and a record written in one of them, the target is
      the other one, and it toggles back. */
  lemma TargetLocaleToggles(r: Record, available: seq<string>)
    requires |available| >= 2 && available[0] != available[1]
    requires r.locale == Some(available[0]) || r.locale == Some(available[1])
    ensures TargetLocale(r, available) in available[..2]
    ensures Some(TargetLocale(r, available)) != r.locale
    ensures Some(TargetLocale(r.(locale := Some(TargetLocale(r, available))), available)) == r.locale
  {
  }
}

=== FILE: records.dfy ===
/** A translatable record as the plugin sees it. */
module Records {
  import opened Wrappers
  import opened Entries

  /** A raised NoMethodError, naming the method that was missing. */
  datatype Failure = NoMethod(name: string)

  /** A row of a translatable model: its class and id, its native attribute values, the locale
      they are written in, the optional cached association flag, and its loaded `translations`. */
  datatype Record = Record(
    typeName: string,
    id: int,
    native: map<string, Option<string>>,
    locale: Option<string>,
    associationsTranslated: Option<bool>,
    translations: seq<Translation>)

  /** The native value of attribute `a` (`send(a)`); an attribute the record lacks reads as nil. */
  function NativeValue(r: Record, a: string): Option<string> {
    if a in r.native then r.native[a] else None
  }

  function OwnerOf(r: Record): Owner {
    Owner(r.typeName, r.id)
  }

  /** The record's `translations` collection is the table's rows for it, in table order. */
  ghost predicate Loaded(store: seq<Translation>, r: Record) {
    r.translations == Select(store, OwnedBy(OwnerOf(r)))
  }

  /** A collection loaded from a table with unique keys has one row per attribute. */
  lemma LoadedUniqueNames(store: seq<Translation>, r: Record)
    requires UniqueKeys(store) && Loaded(store, r)
    ensures UniqueNames(r.translations)
  {
    OwnedRowsUniqueNames(store, OwnerOf(r));
  }
}

=== FILE: registry.dfy ===
/** The declaration `acts_as_translatable :a, :b, options` makes on a model class. */
module Registry {
  import opened Wrappers

  /** A column of the model's table with its schema default. */
  datatype Column = Column(name: string, default: Option<string>)

  /** The `:translatable_associations` option: absent (or nil), one name, or an array of names. */
  datatype AssociationsOption = Unset | One(name: string) | Several(names: seq<string>)

  /** The options hash; keys other than `:translatable_associations` have no effect. */
  datatype Options = Options(translatableAssociations: AssociationsOption)

  /** One argument of the declaration: an attribute name (a symbol or a string), or a hash.
      `inspected` is what `to_s` turns a hash into. */
  datatype Arg = Attribute(name: string) | OptionHash(options: Options, inspected: string)

  /** A registered class: its name, its translatable attributes in declaration order, its options
      and the columns of its table. */
  datatype Declaration = Declaration(
    typeName: string,
    attributes: seq<string>,
    options: Options,
    columns: seq<Column>)

  /** The optional column that caches whether the associations are translated. */
  const CacheColumn: string := "associations_translated"

  /** `to_s` of an argument. */
  function ToS(a: Arg): string {
    match a
    case Attribute(n) => n
    case OptionHash(_, s) => s
  }

  /** `collect!(&:to_s)`. */
  function Names(args: seq<Arg>): (names: seq<string>)
    ensures |names| == |args|
    ensures forall i :: 0 <= i < |args| ==> names[i] == ToS(args[i])
  {
    if args == [] then [] else [ToS(args[0])] + Names(args[1..])
  }

  /** `attrs.last.is_a?(Hash)`. */
  predicate HasTrailingOptions(args: seq<Arg>) {
    |args| > 0 && args[|args| - 1].OptionHash?
  }

  /** `acts_as_translatable(*args)` on class `typeName` whose table has `columns`: a trailing
      hash is popped as the options, every other argument becomes an attribute name. */
  function Register(typeName: string, columns: seq<Column>, args: seq<Arg>): (d: Declaration)
    ensures d.typeName == typeName && d.columns == columns
    ensures HasTrailingOptions(args) ==> d.options == args[|args| - 1].options
    ensures !HasTrailingOptions(args) ==> d.options == Options(Unset)
    ensures |d.attributes| == if HasTrailingOptions(args) then |args| - 1 else |args|
    ensures forall i :: 0 <= i < |d.attributes| ==> d.attributes[i] == ToS(args[i])
  {
    if HasTrailingOptions(args) then
      Declaration(typeName, Names(args[..|args| - 1]), args[|args| - 1].options, columns)
    else
      Declaration(typeName, Names(args), Options(Unset), columns)
  }

  /** `column_names.include?('associations_translated')`. */
  predicate HasCacheColumn(d: Declaration) {
    exists i :: 0 <= i < |d.columns| && d.columns[i].name == CacheColumn
  }

  /** `Array(options[:translatable_associations])`. */
  function AssociationNames(o: Options): (names: seq<string>)
    ensures o.translatableAssociations.Unset? <==> names == [] && !o.translatableAssociations.Several?
    ensures o.translatableAssociations.One? ==> names == [o.translatableAssociations.name]
    ensures o.translatableAssociations.Several? ==> names == o.translatableAssociations.names
  {
    match o.translatableAssociations
    case Unset => []
    case One(n) => [n]
    case Several(ns) => ns
  }

  /** Whether the cache refresh runs after every save: the option is given (an empty array is
      truthy in Ruby) and the table has the cache column. */
  function RefreshesOnSave(d: Declaration): (b: bool)
    ensures b ==> HasCacheColumn(d)
    ensures HasCacheColumn(d) && d.options.translatableAssociations == Several([]) ==> b
    ensures AssociationNames(d.options) == [] && !d.options.translatableAssociations.Several? ==> !b
    ensures b <==> !d.options.translatableAssociations.Unset? && HasCacheColumn(d)
  {
    !d.options.translatableAssociations.Unset? && HasCacheColumn(d)
  }

  /** The first column named `a` is at index `i`. */
  ghost predicate IsFirstColumn(cols: seq<Column>, a: string, i: int) {
    0 <= i < |cols| && cols[i].name == a && forall j :: 0 <= j < i ==> cols[j].name != a
  }

  /** `columns.find { |c| c.name == a }.try(:default)` over `cols`. */
  function DefaultIn(cols: seq<Column>, a: string): (v: Option<string>)
    ensures forall i :: IsFirstColumn(cols, a, i) ==> v == cols[i].default
    ensures (forall i :: 0 <= i < |cols| ==> cols[i].name != a) ==> v == None
  {
    if cols == [] then None
    else if cols[0].name == a then cols[0].default
    else DefaultIn(cols[1..], a)
  }

  /** The schema default of attribute `a`; nil when no such column exists (a store accessor). */
  function ColumnDefault(d: Declaration, a: string): Option<string> {
    DefaultIn(d.columns, a)
  }
}

=== FILE: scenarios.dfy ===
/** Worked examples on concrete data: an `Item` class translating `name` and `description`. */
module Scenarios {
  import opened Wrappers
  import opened Text
  import opened Entries
  import opened Records
  import opened Registry
  import opened Completeness
  import opened TranslationStore

  function ItemColumns(): seq<Column> {
    [Column("id", None), Column("name", None), Column("description", Some(""))]
  }

  /** The `Item` class: `name` and `description` translatable, no cache column. */
  function ItemClass(): Declaration {
    Declaration("Item", ["name", "description"], Options(Unset), ItemColumns())
  }

  /** `acts_as_translatable :name, :description` on `Item` declares exactly that. */
  lemma ItemClassRegistered()
    ensures Register("Item", ItemColumns(), [Attribute("name"), Attribute("description")]) == ItemClass()
    ensures !HasCacheColumn(ItemClass())
  {
  }

  /** The store with a translation of `name` and a stray one of the blank `description`. */
  function StrayStore(): seq<Translation> {
    [Translation(Owner("Item", 1), "name", Some("Chaise"), Some(7), None),
     Translation(Owner("Item", 1), "description", Some("Table"), Some(7), None)]
  }

  /** Item #1: name "Chair", description "", written in English. */
  function Chair(): Record {
    Record("Item", 1, map["name" := Some("Chair"), "description" := Some("")], Some("en"), None, [])
  }

  lemma ChairNeedsOne()
    ensures Required(ItemClass(), Chair()) == 1
  {
    var d := ItemClass();
    assert !IsSpace("Chair"[0]);
    assert Present(NativeValue(Chair(), "name"));
    assert Blank(NativeValue(Chair(), "description"));
    assert d.attributes[1..] == ["description"];
    assert d.attributes[1..][1..] == [];
  }

  /** Chair with no translations is incomplete; after `translate(u, "Item", 1, "name", "Chaise")`
      it is complete. */
  lemma ChairScenario(translator: int)
    ensures TranslationIncomplete(ItemClass(), [], Chair())
    ensures var u := Translate([], translator, "Item", 1, "name", Some("Chaise"));
            u.saved && TranslationComplete(ItemClass(), u.store, Chair())
  {
    var d := ItemClass();
    ChairNeedsOne();
    ItemClassRegistered();
    IncompleteScopeMeaning(d, [], Chair());
    assert !IsSpace("Chaise"[0]);
    var u := Translate([], translator, "Item", 1, "name", Some("Chaise"));
    assert u.store == [Translation(Owner("Item", 1), "name", Some("Chaise"), Some(translator), None)];
    assert Have(d, u.store, 1) == 1;
    InstancePredicates(d, u.store, Chair());
  }

  /** Both stray-store rows count for Chair. */
  lemma StrayStoreHasTwo()
    ensures Have(ItemClass(), StrayStore(), 1) == 2
  {
    var store := StrayStore();
    assert !IsSpace("Chaise"[0]) && !IsSpace("Table"[0]);
    assert Select(store, Counted(Owner("Item", 1))) == store by {
      assert store[1..][1..] == [];
    }
  }

  /** In the stray store the one attribute Chair needs is translated. */
  lemma StrayStoreCoversChair()
    ensures EveryRequiredTranslated(ItemClass(), StrayStore(), Chair())
  {
    var d := ItemClass();
    var store := StrayStore();
    assert !IsSpace("Chaise"[0]);
    assert store[0] in store && Matches(store[0], Counted(Owner("Item", 1)));
    forall a | a in d.attributes && Present(NativeValue(Chair(), a))
      ensures exists t :: t in store && Matches(t, Counted(Owner(d.typeName, 1))) && t.attributeName == a
    {
      assert a == "name";
    }
  }

  /** The code counts rows, not attributes: Chair with a translation of "name" and a stray one of
      its blank "description" stays in the incomplete scope although every attribute it needs
      is translated. */
  lemma StrayRowKeepsChairIncomplete()
    ensures EveryRequiredTranslated(ItemClass(), StrayStore(), Chair())
    ensures InIncompleteScope(ItemClass(), StrayStore(), Chair())
    ensures !InCompleteScope(ItemClass(), StrayStore(), Chair())
  {
    ChairNeedsOne();
    ItemClassRegistered();
    StrayStoreHasTwo();
    StrayStoreCoversChair();
    IncompleteScopeMeaning(ItemClass(), StrayStore(), Chair());
    CompleteScopeMeaning(ItemClass(), StrayStore(), Chair());
  }

  /** A blank item: nothing to translate, `translation_complete?` holds, yet it is in neither
      scope. */
  lemma BlankItemInNeitherScope()
    ensures var r := Record("Item", 2, map["name" := Some(" "), "description" := None], None, None, []);
            && TranslationComplete(ItemClass(), [], r)
            && !InCompleteScope(ItemClass(), [], r)
            && !InIncompleteScope(ItemClass(), [], r)
  {
    var d := ItemClass();
    var r := Record("Item", 2, map["name" := Some(" "), "description" := None], None, None, []);
    assert Blank(NativeValue(r, "name"));
    ItemClassRegistered();
    NothingRequiredInNeitherScope(d, [], r);
  }
}

=== FILE: sql.dfy ===
/** SQL's three-valued logic, as the scopes' WHERE clauses evaluate it. */
module Sql {
  import opened Wrappers

  datatype Tri = True | False | Unknown

  function FromBool(b: bool): Tri {
    if b then True else False
  }

  /** A nullable boolean column used as a condition: NULL reads as unknown. */
  function FromColumn(v: Option<bool>): Tri {
    match v
    case None => Unknown
    case Some(b) => FromBool(b)
  }

  function Not(a: Tri): Tri {
    match a
    case True => False
    case False => True
    case Unknown => Unknown
  }

  function And(a: Tri, b: Tri): Tri {
    if a == False || b == False then False
    else if a == True && b == True then True
    else Unknown
  }

  function Or(a: Tri, b: Tri): Tri {
    if a == True || b == True then True
    else if a == False && b == False then False
    else Unknown
  }

  /** A WHERE clause keeps a row only when its condition is true (not false, not unknown). */
  predicate Keeps(c: Tri) {
    c == True
  }
}

=== FILE: text.dfy ===
/** What "blank" means for the plugin's text values, in Ruby (`blank?`) and in SQL (`~ '\S+'`). */
module Text {
  import opened Wrappers

  /** The whitespace class: space, tab, line feed, vertical tab, form feed, carriage return. */
  predicate IsSpace(c: char) {
    c == ' ' || c == '\t' || c == '\n' || c == '\U{000B}' || c == '\U{000C}' || c == '\r'
  }

  /** `s` matches the pattern `\S+` somewhere: it holds a non-whitespace character. */
  predicate HasNonSpace(s: string) {
    exists i :: 0 <= i < |s| && !IsSpace(s[i])
  }

  /** `blank?` on a nullable string: nil, empty or whitespace only. */
  predicate Blank(v: Option<string>) {
    v.None? || !HasNonSpace(v.value)
  }

  /** `present?`: the opposite of `blank?`. */
  predicate Present(v: Option<string>) {
    !Blank(v)
  }
}

=== FILE: translation_store.dfy ===
/** The `Translation` model: its validation, scopes, the `translate` upsert and
    `attribute_untranslated`. */
module TranslationStore {
  import opened Wrappers
  import opened Text
  import opened Entries
  import opened Records
  import opened Registry
  import opened Accessors

  /** `validates_presence_of :text`. */
  predicate Valid(t: Translation) {
    Present(t.text)
  }

  /** Every persisted row passed validation. */
  ghost predicate AllValid(store: seq<Translation>) {
    forall t :: t in store ==> Valid(t)
  }

  /** What `translate` returns, and the table after it. */
  datatype Upsert = Upsert(saved: bool, store: seq<Translation>)

  /** The row `find_or_initialize_by` yields for `k` after `update_attributes` assigns the
      translator and the text: the first stored row for `k`, or a fresh one. */
  function Assigned(store: seq<Translation>, k: Key, translator: int, text: Option<string>): Translation {
    match FirstIndex(store, Keyed(k))
    case Some(i) => store[i].(text := text, translatorId := Some(translator))
    case None => Translation(k.owner, k.attributeName, text, Some(translator), None)
  }

  /** `Translation.translate(translator, type, id, attribute_name, text)`: find or initialize
      the row for the triple, set its translator and text, save. The save fails validation on
      blank text and then the table is left as it was. */
  function Translate(store: seq<Translation>, translator: int, typeName: string, id: int,
                     attributeName: string, text: Option<string>): (u: Upsert)
    ensures u.saved <==> Present(text)
    ensures !u.saved ==> u.store == store
    ensures u.saved ==> |u.store| == |store| + (if Count(store, Keyed(Key(Owner(typeName, id), attributeName))) == 0 then 1 else 0)
  {
    var k := Key(Owner(typeName, id), attributeName);
    var row := Assigned(store, k, translator, text);
    if !Valid(row) then Upsert(false, store)
    else match FirstIndex(store, Keyed(k))
      case Some(i) => Upsert(true, store[i := row])
      case None =>
        assert Select(store, Keyed(k)) == [] by { SelectNone(store, Keyed(k)); }
        Upsert(true, store + [row])
  }

  /** The table a successful `translate` leaves: the first row for the key updated in place,
      or the fresh row appended. */
  lemma TranslateShape(store: seq<Translation>, translator: int, typeName: string, id: int,
                       attributeName: string, text: Option<string>)
    requires Present(text)
    ensures var k := Key(Owner(typeName, id), attributeName);
            var u := Translate(store, translator, typeName, id, attributeName, text);
            var row := Assigned(store, k, translator, text);
            && u.saved && KeyOf(row) == k
            && row.text == text && row.translatorId == Some(translator)
            && (FirstIndex(store, Keyed(k)).Some? ==> u.store == store[FirstIndex(store, Keyed(k)).value := row])
            && (FirstIndex(store, Keyed(k)).None? ==> u.store == store + [row])
  {
  }

  /** After a successful `translate`, the first row for the triple carries the new text and
      translator; there is one row for it if there was at most one before; rows of every other
      triple are untouched. */
  lemma TranslateUpserts(store: seq<Translation>, translator: int, typeName: string, id: int,
                         attributeName: string, text: Option<string>)
    requires Present(text)
    ensures var k := Key(Owner(typeName, id), attributeName);
            var u := Translate(store, translator, typeName, id, attributeName, text);
            && u.saved
            && (exists i :: IsFirst(u.store, Keyed(k), i) && u.store[i].text == text
                                                          && u.store[i].translatorId == Some(translator))
            && Count(u.store, Keyed(k)) == (if Count(store, Keyed(k)) == 0 then 1 else Count(store, Keyed(k)))
            && forall k' :: k' != k ==> Select(u.store, Keyed(k')) == Select(store, Keyed(k'))
  {
    var k := Key(Owner(typeName, id), attributeName);
    var u := Translate(store, translator, typeName, id, attributeName, text);
    var row := Assigned(store, k, translator, text);
    TranslateShape(store, translator, typeName, id, attributeName, text);
    match FirstIndex(store, Keyed(k))
    case Some(i) =>
      assert IsFirst(u.store, Keyed(k), i);
      ReplaceCount(store, i, row, k);
      forall k' | k' != k
        ensures Select(u.store, Keyed(k')) == Select(store, Keyed(k'))
      {
        ReplaceUnselected(store, i, row, Keyed(k'));
      }
    case None =>
      assert IsFirst(u.store, Keyed(k), |store|);
      AppendCount(store, row, k);
      forall k' | k' != k
        ensures Select(u.store, Keyed(k')) == Select(store, Keyed(k'))
      {
        SelectAppend(store, [row], Keyed(k'));
      }
  }

  lemma ReplaceCount(store: seq<Translation>, i: int, row: Translation, k: Key)
    requires 0 <= i < |store| && KeyOf(row) == k && KeyOf(store[i]) == k
    ensures Count(store[i := row], Keyed(k)) == Count(store, Keyed(k))
  {
    var s' := store[i := row];
    SelectAround(store, i, Keyed(k));
    SelectAround(s', i, Keyed(k));
    assert s'[..i] == store[..i] && s'[i + 1..] == store[i + 1..];
  }

  lemma AppendCount(store: seq<Translation>, row: Translation, k: Key)
    requires KeyOf(row) == k && forall t :: t in store ==> !Matches(t, Keyed(k))
    ensures Count(store + [row], Keyed(k)) == 1 && Count(store, Keyed(k)) == 0
  {
    SelectAppend(store, [row], Keyed(k));
    SelectNone(store, Keyed(k));
  }

  /** On a table with unique keys a successful `translate` leaves exactly one row for the
      triple, and the table keeps unique keys and valid rows. */
  lemma TranslateKeepsOneRow(store: seq<Translation>, translator: int, typeName: string, id: int,
                             attributeName: string, text: Option<string>)
    requires UniqueKeys(store) && AllValid(store)
    ensures var u := Translate(store, translator, typeName, id, attributeName, text);
            && UniqueKeys(u.store)
            && AllValid(u.store)
            && (u.saved ==> Count(u.store, Keyed(Key(Owner(typeName, id), attributeName))) == 1)
  {
    var k := Key(Owner(typeName, id), attributeName);
    var u := Translate(store, translator, typeName, id, attributeName, text);
    if u.saved {
      TranslateUpserts(store, translator, typeName, id, attributeName, text);
      UniqueKeysSingle(store, k);
      var row := Assigned(store, k, translator, text);
      match FirstIndex(store, Keyed(k))
      case Some(i) =>
        assert u.store == store[i := row];
      case None =>
        assert u.store == store + [row];
    }
  }

  /** Blank text: `translate` returns false and the row for the triple, if any, keeps its text
      and translator (unlike the attribute setter, which deletes on blank). */
  lemma TranslateBlankKeepsRow(store: seq<Translation>, translator: int, typeName: string, id: int,
                               attributeName: string, text: Option<string>)
    requires Blank(text)
    ensures var u := Translate(store, translator, typeName, id, attributeName, text);
            && !u.saved
            && Select(u.store, Keyed(Key(Owner(typeName, id), attributeName)))
               == Select(store, Keyed(Key(Owner(typeName, id), attributeName)))
  {
  }

  /** Two `translate` calls on the same triple reuse the row: the outcome is that of the second
      call alone (last writer wins, no duplicate row). */
  lemma {:induction false} TranslateTwiceLastWins(store: seq<Translation>, t1: int, t2: int, typeName: string,
                                                  id: int, attributeName: string, x1: Option<string>, x2: Option<string>)
    requires Present(x2)
    ensures Translate(Translate(store, t1, typeName, id, attributeName, x1).store, t2, typeName, id, attributeName, x2)
            == Translate(store, t2, typeName, id, attributeName, x2)
  {
    var k := Key(Owner(typeName, id), attributeName);
    var s1 := Translate(store, t1, typeName, id, attributeName, x1).store;
    if Present(x1) {
      var row1 := Assigned(store, k, t1, x1);
      match FirstIndex(store, Keyed(k))
      case Some(i) =>
        assert s1 == store[i := row1];
        assert IsFirst(s1, Keyed(k), i);
        FirstIndexOfFirst(s1, Keyed(k), i);
        assert Assigned(s1, k, t2, x2) == Assigned(store, k, t2, x2);
      case None =>
        assert s1 == store + [row1];
        assert IsFirst(s1, Keyed(k), |store|);
        FirstIndexOfFirst(s1, Keyed(k), |store|);
        assert Assigned(s1, k, t2, x2) == Assigned(store, k, t2, x2);
        assert s1[|store| := Assigned(s1, k, t2, x2)] == store + [Assigned(store, k, t2, x2)];
    }
  }

  /** The `unverified` scope. */
  function Unverified(store: seq<Translation>): seq<Translation> {
    Select(store, Entries.Unverified)
  }

  /** The `verified` scope. */
  function Verified(store: seq<Translation>): seq<Translation> {
    Select(store, Entries.Verified)
  }

  /** `verified` and `unverified` split the table: every row lands in exactly one of them. */
  lemma {:induction false} VerifiedPartition(store: seq<Translation>)
    ensures multiset(Verified(store)) + multiset(Unverified(store)) == multiset(store)
    ensures forall t :: t in Verified(store) ==> t.translatorId.Some?
    ensures forall t :: t in Unverified(store) ==> t.translatorId.None?
  {
    if store != [] {
      VerifiedPartition(store[1..]);
      assert store == [store[0]] + store[1..];
    }
  }

  /** The `for_user` scope: filters on `user_id` when the argument is present, otherwise
      leaves the relation unfiltered. */
  function ForUser(store: seq<Translation>, userId: Option<int>): (r: seq<Translation>)
    ensures userId.None? ==> r == store
    ensures userId.Some? ==> forall t :: t in r <==> t in store && t.userId == userId
    ensures userId.Some? ==> forall t :: multiset(r)[t] == if t.userId == userId then multiset(store)[t] else 0
  {
    match userId
    case None => store
    case Some(u) =>
      SelectMultiset(store, Entries.ForUser(u));
      Select(store, Entries.ForUser(u))
  }

  /** `attribute_untranslated`: the owning record's native value of the row's attribute.
      `owner` is what `translatable` loads, None for an orphaned row, where sending the
      attribute name to nil raises. */
  function AttributeUntranslated(t: Translation, owner: Option<Record>): (r: Result<Option<string>, Failure>)
    requires owner.Some? ==> OwnerOf(owner.value) == t.owner
    ensures r.Err? <==> owner.None?
    ensures r.Err? ==> r.error == NoMethod(t.attributeName)
    ensures r.Ok? && t.attributeName !in owner.value.native ==> r.value == None
    ensures r.Ok? && t.attributeName in owner.value.native ==> r.value == owner.value.native[t.attributeName]
  {
    match owner
    case None => Err(NoMethod(t.attributeName))
    case Some(o) => Ok(NativeValue(o, t.attributeName))
  }

  /** In the owner's own language `localized_a` shows what `attribute_untranslated` returns for
      any translation of `a`, whatever its text. */
  lemma UntranslatedIsOwnLanguageValue(d: Declaration, owner: Record, t: Translation, current: string)
    requires OwnerOf(owner) == t.owner && t.attributeName in d.attributes
    requires InOwnLanguage(owner, current)
    ensures AttributeUntranslated(t, Some(owner)) == Ok(Localized(d, owner, t.attributeName, current))
  {
  }
}

=== FILE: wrappers.dfy ===
/** Option and Result values, standing for Ruby's nil and for a raised error. */
module Wrappers {

  /** A nullable value: `None` is Ruby's nil or SQL's NULL. */
  datatype Option<+T> = None | Some(value: T)

  /** The outcome of a call that may raise instead of returning. */
  datatype Result<+T, +E> = Ok(value: T) | Err(error: E)
}
